=== FILE: README.md ===
# Vocabulary store and login rules, modelled in Dafny

This project models the data layer of a personal Chinese-vocabulary web app. Users register and log in. They create words (hanzi, pinyin, translation, comment, word class) and group the words into sets. The model covers the part of `index.js` that reads and changes the database:

- the data-access helpers over the tables `words`, `sets`, `words_sets` and `users`;
- the `/add-word`, `/add-set`, `/add-word-to-set`, `/delete-word-from-set` and `/register` handlers, insofar as they change those tables;
- the passport local-strategy `verify` callback and `serializeUser` / `deserializeUser`.

Layout:

- `tables.dfy` (module `Tables`): the row types of `words`, `sets` and `words_sets`, and the SQL statements as functions over table contents. These are the selects by id, the two deletes, the set-id select and the three-way join of `getWordsInSet`. The lemmas about them are here too.
- `credentials.dfy` (module `Credentials`): the `users` row, the stored password hash, the lookups by name and by id, `verify`, `serializeUser`, and the lemmas tying registration to login.
- `store.dfy` (module `Store`): class `Database`. Each table is a field updated in place. Each SERIAL sequence is a counter. `Valid()` is the invariant:
  - primary keys are unique;
  - user names are unique;
  - every `words_sets` row refers to an existing word and an existing set, and no pair occurs twice;
  - every word's creator and last modifier is a stored user (`AuthorsExist`).

  The read helpers are functions that read the object. The inserts, deletes and handlers are methods. Each method states the new contents of every table.

How the model treats the source:

- A table is a sequence of rows in storage order. PostgreSQL gives no order for a `SELECT` with no `ORDER BY`. The model assumes such a `SELECT` returns rows in storage order, so `rows[0]` is the first match. The contracts of `GetWords` and `GetSets` (the result is the table itself) rest on this assumption.
- `index.js` does not contain the database schema. The model gives `words_sets` the constraints its manual cascade presupposes: a composite key, and foreign keys to `words` and `sets` with no cascading delete.
  - An `INSERT` into `words_sets` that would break one of those constraints raises an error. The helper's `catch` logs it, and nothing changes (`AddWordToSet`).
  - `DELETE FROM words` is refused while membership rows still refer to the word (`DeleteWordRow`). `DeleteWordFromDB` proves that its manual cascade always clears those rows first, so the final delete always succeeds.
- The model does not rely on a `UNIQUE` constraint on `users.user_name`. The lookup in `/register` is what keeps names unique. `Credentials.InsertUserUniqueIff` shows that an unchecked insert of a taken name would create a duplicate.
- bcrypt is a symbolic one-way function: `Bcrypt(cost, salt, preimage)`. `Compare` re-derives a hash using the cost and salt stored in the given hash. The random salt is a parameter of `Register`. The cost is `SaltRounds` = 10.

Behaviour modelled as written, where it differs from what the code evidently intends:

- `deleteWordFromSet(wordId)` deletes every `words_sets` row of the word, whatever the set. Its caller passes a set id, and the function ignores it (`index.js:177-187`, `index.js:206`).
- The `/delete-word-from-set/:wordId/:setId` handler calls `deleteWordFromDB`. The word therefore leaves every set and is removed from `words` (`index.js:339`).
- `getWords`, `getSets`, `getWordsInSet` and `getWordClasses` return `undefined` (`None`) instead of an empty list when no row matches. `getSetIds` returns `[]`.
- `getWordClasses` selects from `users` (`index.js:51`).
- No handler checks ownership. Word deletion is not wrapped in a transaction. A duplicate membership is not reported to the caller. The model does not add any of these.
- `/add-word-to-set` (`index.js:322`) and `/delete-word-from-set` (`index.js:335`) are the only routes that change `words`, `sets` or `words_sets` without `ensureAuthenticated`. Anyone can reach them without logging in. `/register` (`index.js:358`) also changes a table, `users`, without the gate, as it must for a new user. `AddWordToSet` and `PostDeleteWordFromSet` therefore take no acting user.

## Model

| member | source | states |
|---|---|---|
| `Tables.FindWord` | index.js:67-76 | The result is absent exactly when no row has the id. Otherwise it is a row of the table with that id, and when ids are strictly increasing (SERIAL) it is the only such row. |
| `Tables.FindSet` | index.js:88-97 | The same as `FindWord`, for `sets`. |
| `Tables.WithoutWordRow` | index.js:208 | Removes every row with the id. Every row with another id keeps its multiplicity. |
| `Tables.WithoutWordRowSubset` | index.js:208 | Every row left after the delete was in the table before and has a different id. |
| `Tables.WithoutWordRowKeepsOrder` | index.js:208 | The remaining rows keep their order, so ids stay strictly increasing and unique after the delete. |
| `Tables.WithoutWord` | index.js:177-187 | Removes every membership row of the word, whatever its set. Rows of other words keep their multiplicity. |
| `Tables.SetIdsOf` | index.js:189-200 | A set id is listed exactly when the pair (word, set) is a membership row. There is one entry per row removed by the membership delete. |
| `Tables.WithoutAbsentWord` | index.js:204-205 | A word with no membership rows leaves the membership table unchanged. |
| `Tables.WithoutWordIdempotent` | index.js:206 | A second membership delete for the same word changes nothing. The per-set loop therefore ends in the state of a single delete. |
| `Tables.WordsOfMembership` | index.js:110-112 | The join with `words` for one membership row lists exactly the projections of the words with that row's word id. |
| `Tables.JoinMembers` | index.js:109-116 | The join of `words` with the set's membership rows lists exactly the projections of the words that have a membership row in the set. |
| `Tables.WordsInSet` | index.js:99-124 | The same listing, but only when a set with that id exists. A missing set yields no rows. |
| `Tables.JoinUnderForeignKeys` | index.js:99-124 | When no membership row dangles, a word is listed exactly when it has a membership row in the set. The listing is empty exactly when the set has no membership rows. |
| `Tables.AddedWordListed` | index.js:165-175 | After the pair (w, s) is inserted, with both w and s existing, `getWordsInSet(s)` lists w. |
| `Tables.RemovedWordNotListed` | index.js:177-187 | After the membership delete for word w, no set's listing contains w. |
| `Credentials.Hash` | index.js:371 | The stored hash embeds cost 10 and the drawn salt. It compares true with exactly one password, the one that was hashed. |
| `Credentials.Compare` | index.js:412 | `bcrypt.compare` re-derives with the cost and salt embedded in the stored hash. It is true exactly for the password the hash was made from. |
| `Credentials.SerializeUser` | index.js:434-436 | The session keeps only `user.id`. In any users table with strictly increasing (SERIAL) ids, that id looks up the same user again. |
| `Credentials.FindUserByName` | index.js:405-410 | The result is absent exactly when the name is free. Otherwise it is a stored user with that name, and it is the only one when names are unique. |
| `Credentials.FindUserById` | index.js:440-441 | The result is absent exactly when no user has the id. Otherwise it is a stored user with that id, and it is the only one when ids are strictly increasing (SERIAL). |
| `Credentials.Verify` | index.js:402-432 | Fails with "User not found." exactly when no user has the name. Otherwise it fails with "Incorrect password." or succeeds with a stored user of that name whose hash compares true. When names are unique it succeeds exactly when such a user exists. |
| `Credentials.InsertUserUniqueIff` | index.js:362-375 | Appending a user keeps names unique exactly when the existence check finds the name free. |
| `Credentials.RegisteredUserLogsIn` | index.js:409-421 | After registration under a free name, `verify` with the same password yields that user. `verify` with any other password fails with "Incorrect password.". |
| `Store.Database.GetWordClasses` | index.js:49-56 | As written, returns the `users` rows, or nothing when `users` is empty. |
| `Store.Database.GetWords` | index.js:58-65 | Returns every word row, or nothing (not `[]`) when the table is empty. |
| `Store.Database.GetWord` | index.js:67-76 | Returns the unique word row with that id, or nothing when it is absent. |
| `Store.Database.GetSets` | index.js:78-86 | Returns every set row, or nothing (not `[]`) when the table is empty. |
| `Store.Database.GetSet` | index.js:88-97 | Returns the unique set row with that id, or nothing when it is absent. |
| `Store.Database.GetWordsInSet` | index.js:99-124 | Lists exactly the words w such that (w.id, s) is a membership row. Returns nothing, not `[]`, exactly when set s has no membership rows. |
| `Store.Database.GetSetIds` | index.js:189-200 | Lists exactly the set ids paired with the word, each of them an existing set. Returns `[]` exactly when the word has no membership rows. Changes nothing. |
| `Store.Database.DeserializeUser` | index.js:434-446 | For every stored user u, the id that `serializeUser` keeps maps back to u. Returns nothing exactly when no user has the id. |
| `Store.Database.AddWord` | index.js:126-152 | Appends exactly one word row with the next SERIAL id and the given fields. Requires both author ids to be stored users, as its only caller guarantees. Keeps the invariant. The other tables are unchanged. |
| `Store.Database.PostAddWord` | index.js:232-251 | The acting user is a stored user, since the route is behind `ensureAuthenticated` and `req.user` is a row `deserializeUser` found. Adds one new word, with a fresh id, whose creator and last modifier are both the acting user. The word counter advances by one. Every earlier row, the other tables and the other counters are unchanged. |
| `Store.Database.AddSet` | index.js:153-163 | Appends exactly one set row with the next SERIAL id. The other tables are unchanged. |
| `Store.Database.AddWordToSet` | index.js:165-175 | Appends the pair when the word and the set exist and the pair is new. Otherwise the table is unchanged. No other table changes. |
| `Store.Database.DeleteWordFromSet` | index.js:177-187 | Removes all membership rows of the word, ignoring the set argument. Keeps the invariant. No other table changes. |
| `Store.Database.DeleteWordRow` | index.js:208 | Removes the word row when no membership row refers to it. Otherwise the foreign key leaves `words` unchanged. |
| `Store.Database.DeleteWordFromDB` | index.js:202-212 | Afterwards no word row has the id and no membership row refers to it. All other word and membership rows are unchanged. No dangling membership remains. `users` and `sets` are unchanged. |
| `Store.Database.PostDeleteWordFromSet` | index.js:335-346 | As written, removes the word from every set and from `words`, not only from the set in the path. The new membership table is the old one with all the word's rows removed, in order. The other tables and the id counters are unchanged. |
| `Store.Database.Register` | index.js:358-389 | A taken name leaves `users` unchanged. Otherwise exactly one user is appended, with the next id and `Hash(password, salt)` as the stored password. The new user's session id maps back to them, and `verify` with the same password yields them. Other tables are unchanged. |

## Left out

- HTTP plumbing is not modelled: Express routing, body parsing, static files, session middleware, rendering, redirects and the `ensureAuthenticated` gate on the routes that have it (`index.js:11-28`, `index.js:39-45`, and the routes between `index.js:214` and `index.js:450`). The acting user of `/add-word` is a parameter, required to be a stored user.
- The `/word/:wordId` and `/set/:setId` handlers are not modelled. They only combine the read helpers with a 404 response.
- Store failures are not modelled: connection loss and the `catch` blocks that log and swallow errors. The only statement failures modelled are the deterministic key violations described above. Because of this, `getSetIds` returning `undefined` inside `deleteWordFromDB` after a failed query is not modelled.
- Concurrency is not modelled. Each helper runs to completion on its own, so the check-then-insert race in `/register` and the non-atomic cascade in `deleteWordFromDB` are out of scope.
- The bcrypt algorithm is not modelled: its salt generation, cost schedule, 72-byte input limit, and the error callback of `bcrypt.compare`. The hash is a symbolic one-way function.
- The `pg` connection, environment configuration and the unused Google OAuth import are I/O and foreign libraries.
- The `req.login` error path after registration and the `deserializeUser` error path are session plumbing, not database behaviour.
- The foreign key from `words.word_class_id` is not modelled, because the model has no `word_classes` table and `index.js` never reads one. `created_id` and `last_modified_id` are linked to `users` through `AuthorsExist` in `Valid()`.
- Missing request fields are not modelled. Such a field is `undefined` in `req.body`, and node-postgres sends it as SQL NULL, but every modelled field is a `string`. Under NULL the `/register` name check (`user_name = $1`) never matches, so a request without a username always inserts, and repeating it inserts more such rows. A missing `comment` on `/add-word` becomes NULL in the same way.
- Logout (`index.js:391-398`) is session plumbing and is not modelled. `index.js` has no route or query for updating a word, deleting a set or searching, so the model has none either.
- `Store.Database.GetWordsInSet`: its contract states which words are listed, not their order or how many times each appears. The function itself fixes membership order, one row per membership.

=== FILE: credentials.dfy ===
/**
 * The `users` table and the identity rules built on it: the password hash
 * stored at registration, the local-strategy `verify` callback, and the
 * session's serialize/deserialize pair.
 */
module Credentials {

  import opened Tables

  /** `saltRounds`, the bcrypt cost factor used at registration. */
  const SaltRounds: nat := 10

  /**
   * A bcrypt hash string, as a symbolic term: the cost and salt it embeds,
   * and the password it was derived from. Nothing in the model reads
   * `preimage` except through Compare, so the term stands for an ideal
   * one-way function rather than for the algorithm.
   */
  datatype PasswordHash = Bcrypt(cost: nat, salt: string, preimage: string)

  /** A row of `users`; the `password` column holds a hash, never a plain string. */
  datatype User = User(
    id: int,
    userName: string,
    firstName: string,
    lastName: string,
    email: string,
    password: PasswordHash)

  /** `bcrypt.hash(password, saltRounds)`, the salt being the one bcrypt draws. */
  function Hash(password: string, salt: string): (h: PasswordHash)
    ensures h.cost == SaltRounds && h.salt == salt
    ensures forall p :: Compare(p, h) <==> p == password
  {
    Bcrypt(SaltRounds, salt, password)
  }

  /** `bcrypt.compare(password, hash)`: re-derive with the cost and salt embedded in the hash. */
  predicate Compare(password: string, h: PasswordHash): (ok: bool)
    ensures ok <==> password == h.preimage
  {
    Bcrypt(h.cost, h.salt, password) == h
  }

  predicate NameTaken(users: seq<User>, userName: string)
  {
    exists u :: u in users && u.userName == userName
  }

  predicate HasUserId(users: seq<User>, id: int)
  {
    exists u :: u in users && u.id == id
  }

  /** The registration check keeps user names unique. */
  ghost predicate UniqueNames(users: seq<User>)
  {
    forall i, j :: 0 <= i < j < |users| ==> users[i].userName != users[j].userName
  }

  /** `id` is the primary key of `users`; SERIAL ids are handed out in increasing order. */
  ghost predicate UserIdsIncreasing(users: seq<User>)
  {
    forall i, j :: 0 <= i < j < |users| ==> users[i].id < users[j].id
  }

  /** `SELECT * FROM users WHERE user_name = $1`, then `rows[0]`. */
  function FindUserByName(users: seq<User>, userName: string): (r: Option<User>)
    ensures r.None? <==> !NameTaken(users, userName)
    ensures r.Some? ==> r.value in users && r.value.userName == userName
    ensures r.Some? && UniqueNames(users) ==> forall u :: u in users && u.userName == userName ==> u == r.value
  {
    if users == [] then None
    else if users[0].userName == userName then Some(users[0])
    else
      assert forall u :: u in users && u != users[0] ==> u in users[1..];
      assert UniqueNames(users) ==> UniqueNames(users[1..]);
      FindUserByName(users[1..], userName)
  }

  /** `SELECT * FROM users WHERE id = $1`, then `rows[0]` (undefined when there is none). */
  function FindUserById(users: seq<User>, id: int): (r: Option<User>)
    ensures r.None? <==> !HasUserId(users, id)
    ensures r.Some? ==> r.value in users && r.value.id == id
    ensures r.Some? && UserIdsIncreasing(users) ==> forall u :: u in users && u.id == id ==> u == r.value
  {
    if users == [] then None
    else if users[0].id == id then Some(users[0])
    else
      assert forall u :: u in users && u != users[0] ==> u in users[1..];
      FindUserById(users[1..], id)
  }

  /** What `verify` hands to passport's callback. */
  datatype LoginOutcome = Authenticated(user: User) | Rejected(message: string)

  const UserNotFound: string := "User not found."
  const IncorrectPassword: string := "Incorrect password."

  /** The local-strategy `verify` callback: look the user up by name, then compare. */
  function Verify(users: seq<User>, userName: string, password: string): (r: LoginOutcome)
    ensures r == Rejected(UserNotFound) <==> !NameTaken(users, userName)
    ensures r.Rejected? ==> r.message in {UserNotFound, IncorrectPassword}
    ensures r.Authenticated? ==> r.user in users && r.user.userName == userName && Compare(password, r.user.password)
    ensures UniqueNames(users) ==>
      (r.Authenticated? <==> exists u :: u in users && u.userName == userName && Compare(password, u.password))
  {
    match FindUserByName(users, userName)
    case None => Rejected(UserNotFound)
    case Some(u) => if Compare(password, u.password) then Authenticated(u) else Rejected(IncorrectPassword)
  }

  /**
   * `serializeUser`: the session keeps only the user id, and in any users
   * table with strictly increasing (SERIAL) ids that id leads back to the user.
   */
  function SerializeUser(u: User): (id: int)
    ensures forall users :: UserIdsIncreasing(users) && u in users ==> FindUserById(users, id) == Some(u)
  {
    u.id
  }

  /**
   * The registration check is what keeps names unique: with the name free,
   * appending the new row keeps them unique; with the name taken, an
   * unchecked insert would create a duplicate.
   */
  lemma InsertUserUniqueIff(users: seq<User>, u: User)
    requires UniqueNames(users)
    ensures UniqueNames(users + [u]) <==> !NameTaken(users, u.userName)
  {
    var all := users + [u];
    if NameTaken(users, u.userName) {
      var v :| v in users && v.userName == u.userName;
      var i :| 0 <= i < |users| && users[i] == v;
      assert all[i].userName == all[|users|].userName;
    }
  }

  /**
   * After a user is appended under a free name with the hash of `password`,
   * logging in with `password` yields that user and any other password is
   * refused as incorrect.
   */
  lemma RegisteredUserLogsIn(users: seq<User>, u: User, password: string, salt: string, other: string)
    requires UniqueNames(users) && !NameTaken(users, u.userName)
    requires u.password == Hash(password, salt)
    ensures Verify(users + [u], u.userName, password) == Authenticated(u)
    ensures other != password ==> Verify(users + [u], u.userName, other) == Rejected(IncorrectPassword)
  {
    InsertUserUniqueIff(users, u);
    assert u in users + [u];
  }
}

=== FILE: store.dfy ===
/**
 * The database behind the vocabulary app: the four tables it reads and
 * writes, updated in place by the data-access helpers, the `/add-word`,
 * `/add-set`, `/add-word-to-set`, `/delete-word-from-set` and `/register`
 * handlers, and the passport
 * callbacks that read `users`.
 */
module Store {

  import opened Tables
  import opened Credentials

  /** Does any membership row refer to the word? */
  predicate Referenced(ws: seq<Membership>, wordId: int)
  {
    exists m :: m in ws && m.wordId == wordId
  }

  /**
   * Every word's creator and last modifier is a stored user: `/add-word`
   * stamps both with `req.user.id`, a row `deserializeUser` found, and no
   * code path deletes a user.
   */
  predicate AuthorsExist(words: seq<Word>, users: seq<User>)
  {
    forall w :: w in words ==> HasUserId(users, w.createdId) && HasUserId(users, w.lastModifiedId)
  }

  class Database {
    var users: seq<User>
    var words: seq<Word>
    var sets: seq<VocabSet>
    var wordsSets: seq<Membership>

    // The SERIAL sequences behind the `id` columns: the id the next insert receives.
    var nextUserId: int
    var nextWordId: int
    var nextSetId: int

    /**
     * Primary keys are unique (ids are handed out increasing and below the
     * sequence), user names are unique, and `words_sets` has its composite
     * key and no row referring to a missing word or set, and every word was
     * created and last modified by a stored user.
     */
    ghost predicate Valid()
      reads this
    {
      && UserIdsIncreasing(users) && UniqueNames(users)
      && (forall u :: u in users ==> u.id < nextUserId)
      && WordIdsIncreasing(words)
      && (forall w :: w in words ==> w.id < nextWordId)
      && SetIdsIncreasing(sets)
      && (forall s :: s in sets ==> s.id < nextSetId)
      && ForeignKeysHold(words, wordsSets, sets)
      && (forall m :: multiset(wordsSets)[m] <= 1)
      && AuthorsExist(words, users)
    }

    constructor ()
      ensures Valid()
      ensures users == [] && words == [] && sets == [] && wordsSets == []
      ensures nextUserId == 1 && nextWordId == 1 && nextSetId == 1
    {
      users, words, sets, wordsSets := [], [], [], [];
      nextUserId, nextWordId, nextSetId := 1, 1, 1;
    }

    // ------------------------------------------------------------ readers

    /** `getWordClasses`, as written: it selects from `users`, not from a word-class table. */
    function GetWordClasses(): (r: Option<seq<User>>)
      reads this
      ensures r.None? <==> users == []
      ensures r.Some? ==> r.value == users
    {
      RowsOrUndefined(users)
    }

    /** `getWords`: every word row, or undefined when there are none. */
    function GetWords(): (r: Option<seq<Word>>)
      reads this
      ensures r.None? <==> words == []
      ensures r.Some? ==> r.value == words
    {
      RowsOrUndefined(words)
    }

    /** `getWord`: the one row with that id, or undefined. */
    function GetWord(wordId: int): (r: Option<Word>)
      reads this
      requires Valid()
      ensures r.None? <==> !HasWord(words, wordId)
      ensures r.Some? ==> r.value in words && r.value.id == wordId
      ensures r.Some? ==> forall w :: w in words && w.id == wordId ==> w == r.value
    {
      FindWord(words, wordId)
    }

    /** `getSets`: every set row, or undefined when there are none. */
    function GetSets(): (r: Option<seq<VocabSet>>)
      reads this
      ensures r.None? <==> sets == []
      ensures r.Some? ==> r.value == sets
    {
      RowsOrUndefined(sets)
    }

    /** `getSet`: the one row with that id, or undefined. */
    function GetSet(setId: int): (r: Option<VocabSet>)
      reads this
      requires Valid()
      ensures r.None? <==> !HasSet(sets, setId)
      ensures r.Some? ==> r.value in sets && r.value.id == setId
      ensures r.Some? ==> forall s :: s in sets && s.id == setId ==> s == r.value
    {
      FindSet(sets, setId)
    }

    /**
     * `getWordsInSet`: the projected words that have a membership row in the
     * set; undefined, not an empty list, when the set has none (also when the
     * set does not exist).
     */
    function GetWordsInSet(setId: int): (r: Option<seq<SetEntry>>)
      reads this
      requires Valid()
      ensures r.None? <==> forall m :: m in wordsSets ==> m.setId != setId
      ensures forall e :: (r.Some? && e in r.value) <==>
        exists w :: w in words && Membership(w.id, setId) in wordsSets && e == Project(w)
    {
      JoinUnderForeignKeys(words, wordsSets, sets, setId);
      RowsOrUndefined(WordsInSet(words, wordsSets, sets, setId))
    }

    /** `getSetIds`: the set ids of the word's membership rows; `[]`, not undefined, when there are none. */
    function GetSetIds(wordId: int): (r: seq<int>)
      reads this
      requires Valid()
      ensures forall s :: s in r <==> Membership(wordId, s) in wordsSets
      ensures r == [] <==> !Referenced(wordsSets, wordId)
      ensures forall s :: s in r ==> HasSet(sets, s)
    {
      var r := SetIdsOf(wordsSets, wordId);
      assert Referenced(wordsSets, wordId) ==> r != [] by {
        if Referenced(wordsSets, wordId) {
          var m :| m in wordsSets && m.wordId == wordId;
          assert m == Membership(wordId, m.setId) && m.setId in r;
        }
      }
      assert r != [] ==> Referenced(wordsSets, wordId) by {
        if r != [] {
          assert Membership(wordId, r[0]) in wordsSets;
        }
      }
      r
    }

    /** `deserializeUser`: the user whose id the session holds, or undefined. */
    function DeserializeUser(id: int): (r: Option<User>)
      reads this
      requires Valid()
      ensures r.None? <==> !HasUserId(users, id)
      ensures forall u :: u in users && SerializeUser(u) == id ==> r == Some(u)
    {
      FindUserById(users, id)
    }

    // ----------------------------------------------------------- mutators

    /**
     * `addWord`: one INSERT into `words`; the row gets the next SERIAL id.
     * Its only caller passes the id of the logged-in user for both authors.
     */
    method AddWord(hanzi: string, pinyin: string, translation: string,
                   createdId: int, lastModifiedId: int, wordClassId: int, comment: string)
      requires Valid()
      requires HasUserId(users, createdId) && HasUserId(users, lastModifiedId)
      modifies this
      ensures Valid()
      ensures words == old(words) + [Word(old(nextWordId), hanzi, pinyin, translation, comment,
                                          wordClassId, createdId, lastModifiedId)]
      ensures nextWordId == old(nextWordId) + 1
      ensures users == old(users) && sets == old(sets) && wordsSets == old(wordsSets)
      ensures nextUserId == old(nextUserId) && nextSetId == old(nextSetId)
    {
      assert forall w :: w in words + [Word(nextWordId, hanzi, pinyin, translation, comment,
                                            wordClassId, createdId, lastModifiedId)]
                     ==> w in words || (w.createdId == createdId && w.lastModifiedId == lastModifiedId);
      words := words + [Word(nextWordId, hanzi, pinyin, translation, comment,
                             wordClassId, createdId, lastModifiedId)];
      nextWordId := nextWordId + 1;
    }

    /**
     * The `/add-word` handler: the acting user becomes both creator and last
     * modifier. The route is behind `ensureAuthenticated`, so the acting user
     * is a stored user.
     */
    method PostAddWord(userId: int, hanzi: string, pinyin: string, translation: string,
                       wordClassId: int, comment: string)
      requires Valid()
      requires HasUserId(users, userId)
      modifies this
      ensures Valid()
      ensures |words| == |old(words)| + 1 && words[..|old(words)|] == old(words)
      ensures words[|old(words)|] == Word(old(nextWordId), hanzi, pinyin, translation, comment,
                                          wordClassId, userId, userId)
      ensures !HasWord(old(words), words[|old(words)|].id)
      ensures nextWordId == old(nextWordId) + 1
      ensures users == old(users) && sets == old(sets) && wordsSets == old(wordsSets)
      ensures nextUserId == old(nextUserId) && nextSetId == old(nextSetId)
    {
      AddWord(hanzi, pinyin, translation, userId, userId, wordClassId, comment);
    }

    /** `addSet` (and the identical INSERT in the `/add-set` handler). */
    method AddSet(name: string, comment: string)
      requires Valid()
      modifies this
      ensures Valid()
      ensures sets == old(sets) + [VocabSet(old(nextSetId), name, comment)]
      ensures nextSetId == old(nextSetId) + 1
      ensures users == old(users) && words == old(words) && wordsSets == old(wordsSets)
      ensures nextUserId == old(nextUserId) && nextWordId == old(nextWordId)
    {
      sets := sets + [VocabSet(nextSetId, name, comment)];
      nextSetId := nextSetId + 1;
    }

    /**
     * `addWordToSet`: one INSERT into `words_sets`. A row that would dangle
     * or repeat a pair violates the table's keys; the error is caught and
     * logged, and nothing changes.
     */
    method AddWordToSet(wordId: int, setId: int)
      requires Valid()
      modifies this
      ensures Valid()
      ensures wordsSets ==
        if HasWord(old(words), wordId) && HasSet(old(sets), setId) && Membership(wordId, setId) !in old(wordsSets)
        then old(wordsSets) + [Membership(wordId, setId)]
        else old(wordsSets)
      ensures users == old(users) && words == old(words) && sets == old(sets)
      ensures nextUserId == old(nextUserId) && nextWordId == old(nextWordId) && nextSetId == old(nextSetId)
    {
      var m := Membership(wordId, setId);
      if HasWord(words, wordId) && HasSet(sets, setId) && m !in wordsSets {
        wordsSets := wordsSets + [m];
      }
    }

    /**
     * `deleteWordFromSet`, as written: its query filters on `word_id` only,
     * so the set id is ignored and the word leaves every set.
     */
    method DeleteWordFromSet(wordId: int, setId: int)
      requires Valid()
      modifies this
      ensures Valid()
      ensures wordsSets == WithoutWord(old(wordsSets), wordId)
      ensures users == old(users) && words == old(words) && sets == old(sets)
      ensures nextUserId == old(nextUserId) && nextWordId == old(nextWordId) && nextSetId == old(nextSetId)
    {
      wordsSets := WithoutWord(wordsSets, wordId);
    }

    /**
     * `DELETE FROM words WHERE id = $1`. While a membership row still refers
     * to the word the foreign key refuses the delete and nothing changes.
     */
    method DeleteWordRow(wordId: int)
      requires Valid()
      modifies this
      ensures Valid()
      ensures words == if Referenced(old(wordsSets), wordId) then old(words) else WithoutWordRow(old(words), wordId)
      ensures users == old(users) && sets == old(sets) && wordsSets == old(wordsSets)
      ensures nextUserId == old(nextUserId) && nextWordId == old(nextWordId) && nextSetId == old(nextSetId)
    {
      if !Referenced(wordsSets, wordId) {
        WithoutWordRowKeepsOrder(words, wordId);
        var rest := WithoutWordRow(words, wordId);
        forall m | m in wordsSets ensures HasWord(rest, m.wordId) {
          var w :| w in words && w.id == m.wordId;
          assert multiset(rest)[w] > 0;
        }
        WithoutWordRowSubset(words, wordId);
        words := rest;
      }
    }

    /**
     * `deleteWordFromDB`, the manual cascade: list the word's set ids, run
     * the membership delete once per id, then delete the word row. Every
     * other word and membership row stays as it was.
     */
    method DeleteWordFromDB(wordId: int)
      requires Valid()
      modifies this
      ensures Valid()
      ensures words == WithoutWordRow(old(words), wordId)
      ensures wordsSets == WithoutWord(old(wordsSets), wordId)
      ensures !HasWord(words, wordId) && !Referenced(wordsSets, wordId)
      ensures users == old(users) && sets == old(sets)
      ensures nextUserId == old(nextUserId) && nextWordId == old(nextWordId) && nextSetId == old(nextSetId)
    {
      var setIds := GetSetIds(wordId);
      if |setIds| > 0 {
        for i := 0 to |setIds|
          invariant Valid()
          invariant wordsSets == if i == 0 then old(wordsSets) else WithoutWord(old(wordsSets), wordId)
          invariant users == old(users) && words == old(words) && sets == old(sets)
          invariant nextUserId == old(nextUserId) && nextWordId == old(nextWordId) && nextSetId == old(nextSetId)
        {
          WithoutWordIdempotent(old(wordsSets), wordId);
          DeleteWordFromSet(wordId, setIds[i]);
        }
      } else {
        WithoutAbsentWord(wordsSets, wordId);
      }
      assert !Referenced(wordsSets, wordId) by {
        forall m | m in wordsSets ensures m.wordId != wordId {
          assert multiset(wordsSets)[m] > 0;
        }
      }
      DeleteWordRow(wordId);
      assert !HasWord(words, wordId) by {
        forall w | w in words ensures w.id != wordId {
          assert multiset(words)[w] > 0;
        }
      }
    }

    /**
     * The `/delete-word-from-set` handler, as written: it calls the full
     * word delete, so the word leaves every set and the `words` table, not
     * only the set named in the path.
     */
    method PostDeleteWordFromSet(wordId: int, setId: int)
      requires Valid()
      modifies this
      ensures Valid()
      ensures words == WithoutWordRow(old(words), wordId)
      ensures wordsSets == WithoutWord(old(wordsSets), wordId)
      ensures forall s :: Membership(wordId, s) !in wordsSets
      ensures forall m: Membership :: m.wordId != wordId ==> multiset(wordsSets)[m] == multiset(old(wordsSets))[m]
      ensures users == old(users) && sets == old(sets)
      ensures nextUserId == old(nextUserId) && nextWordId == old(nextWordId) && nextSetId == old(nextSetId)
    {
      DeleteWordFromDB(wordId);
    }

    /**
     * The `/register` handler: look the name up; if it is taken, change
     * nothing; otherwise insert the user with the hash of the password and
     * log them in (the session holds their id).
     */
    method Register(userName: string, firstName: string, lastName: string, email: string,
                    password: string, salt: string) returns (user: Option<User>)
      requires Valid()
      modifies this
      ensures Valid()
      ensures NameTaken(old(users), userName) ==> user.None? && users == old(users) && nextUserId == old(nextUserId)
      ensures !NameTaken(old(users), userName) ==>
        && user == Some(User(old(nextUserId), userName, firstName, lastName, email, Hash(password, salt)))
        && users == old(users) + [user.value]
        && nextUserId == old(nextUserId) + 1
      ensures user.Some? ==> DeserializeUser(SerializeUser(user.value)) == user
      ensures user.Some? ==> Verify(users, userName, password) == Authenticated(user.value)
      ensures words == old(words) && sets == old(sets) && wordsSets == old(wordsSets)
      ensures nextWordId == old(nextWordId) && nextSetId == old(nextSetId)
    {
      if FindUserByName(users, userName).Some? {
        return None;
      }
      var hashed := Hash(password, salt);
      var u := User(nextUserId, userName, firstName, lastName, email, hashed);
      InsertUserUniqueIff(users, u);
      RegisteredUserLogsIn(users, u, password, salt, password);
      users := users + [u];
      nextUserId := nextUserId + 1;
      user := Some(u);
    }
  }
}

=== FILE: tables.dfy ===
/**
 * The vocabulary tables `words`, `sets` and `words_sets`, and the meaning of
 * the SQL statements the data-access helpers issue against them, written as
 * functions over the table contents. A table is a sequence of rows in storage
 * order; a SELECT without ORDER BY is taken to return its rows in that order.
 */
module Tables {

  datatype Option<T> = None | Some(value: T)

  /** A row of `words`. */
  datatype Word = Word(
    id: int,
    hanzi: string,
    pinyin: string,
    translation: string,
    comment: string,
    wordClassId: int,
    createdId: int,
    lastModifiedId: int)

  /** A row of `sets`. */
  datatype VocabSet = VocabSet(id: int, name: string, comment: string)

  /** A row of `words_sets`: "word `wordId` belongs to set `setId`". */
  datatype Membership = Membership(wordId: int, setId: int)

  /** A row of the join in getWordsInSet: `w.id AS word_id, w.hanzi, w.pinyin, w.translation, w.comment`. */
  datatype SetEntry = SetEntry(wordId: int, hanzi: string, pinyin: string, translation: string, comment: string)

  /**
   * The helpers' `rows.length ? rows : console.log(...)`: an empty result
   * comes back as `undefined` (None), never as an empty list.
   */
  function RowsOrUndefined<T>(rows: seq<T>): Option<seq<T>>
  {
    if |rows| > 0 then Some(rows) else None
  }

  // ---------------------------------------------------------------- words

  predicate HasWord(words: seq<Word>, id: int)
  {
    exists w :: w in words && w.id == id
  }

  /** `id` is the primary key of `words`; SERIAL ids are handed out in increasing order. */
  ghost predicate WordIdsIncreasing(words: seq<Word>)
  {
    forall i, j :: 0 <= i < j < |words| ==> words[i].id < words[j].id
  }

  /** `SELECT * FROM words WHERE id = $1`, then `rows[0]`. */
  function FindWord(words: seq<Word>, id: int): (r: Option<Word>)
    ensures r.None? <==> !HasWord(words, id)
    ensures r.Some? ==> r.value in words && r.value.id == id
    ensures r.Some? && WordIdsIncreasing(words) ==> forall w :: w in words && w.id == id ==> w == r.value
  {
    if words == [] then None
    else if words[0].id == id then Some(words[0])
    else
      assert forall w :: w in words && w != words[0] ==> w in words[1..];
      FindWord(words[1..], id)
  }

  /** `DELETE FROM words WHERE id = $1`: every row with that id goes, every other row stays. */
  function WithoutWordRow(words: seq<Word>, id: int): (r: seq<Word>)
    ensures forall w :: multiset(r)[w] == if w.id == id then 0 else multiset(words)[w]
  {
    if words == [] then []
    else
      assert words == [words[0]] + words[1..];
      if words[0].id == id then WithoutWordRow(words[1..], id)
      else [words[0]] + WithoutWordRow(words[1..], id)
  }

  /** The word delete keeps the remaining rows in their order, so the primary key stays unique. */
  lemma {:induction false} WithoutWordRowKeepsOrder(words: seq<Word>, id: int)
    requires WordIdsIncreasing(words)
    ensures WordIdsIncreasing(WithoutWordRow(words, id))
  {
    if words != [] {
      var rest := WithoutWordRow(words[1..], id);
      WithoutWordRowKeepsOrder(words[1..], id);
      if words[0].id != id {
        forall k | 0 <= k < |rest| ensures words[0].id < rest[k].id {
          assert multiset(rest)[rest[k]] > 0;
          assert rest[k] in words[1..];
        }
      }
    }
  }

  /** Every row left by the word delete was there before and has another id. */
  lemma WithoutWordRowSubset(words: seq<Word>, id: int)
    ensures forall w :: w in WithoutWordRow(words, id) ==> w in words && w.id != id
  {
    var rest := WithoutWordRow(words, id);
    forall w | w in rest ensures w in words && w.id != id {
      assert multiset(rest)[w] > 0;
    }
  }

  // ---------------------------------------------------------------- sets

  predicate HasSet(sets: seq<VocabSet>, id: int)
  {
    exists s :: s in sets && s.id == id
  }

  /** `id` is the primary key of `sets`; SERIAL ids are handed out in increasing order. */
  ghost predicate SetIdsIncreasing(sets: seq<VocabSet>)
  {
    forall i, j :: 0 <= i < j < |sets| ==> sets[i].id < sets[j].id
  }

  /** `SELECT * FROM sets WHERE id = $1`, then `rows[0]`. */
  function FindSet(sets: seq<VocabSet>, id: int): (r: Option<VocabSet>)
    ensures r.None? <==> !HasSet(sets, id)
    ensures r.Some? ==> r.value in sets && r.value.id == id
    ensures r.Some? && SetIdsIncreasing(sets) ==> forall s :: s in sets && s.id == id ==> s == r.value
  {
    if sets == [] then None
    else if sets[0].id == id then Some(sets[0])
    else
      assert forall s :: s in sets && s != sets[0] ==> s in sets[1..];
      FindSet(sets[1..], id)
  }

  // ---------------------------------------------------------- memberships

  /** `DELETE FROM words_sets WHERE word_id = $1`: all rows of that word go, whatever their set. */
  function WithoutWord(ws: seq<Membership>, wordId: int): (r: seq<Membership>)
    ensures forall m :: multiset(r)[m] == if m.wordId == wordId then 0 else multiset(ws)[m]
  {
    if ws == [] then []
    else
      assert ws == [ws[0]] + ws[1..];
      if ws[0].wordId == wordId then WithoutWord(ws[1..], wordId)
      else [ws[0]] + WithoutWord(ws[1..], wordId)
  }

  /** `SELECT set_id FROM words_sets WHERE word_id = $1`: one set id per membership row of the word. */
  function SetIdsOf(ws: seq<Membership>, wordId: int): (r: seq<int>)
    ensures forall s :: s in r <==> Membership(wordId, s) in ws
    ensures |r| + |WithoutWord(ws, wordId)| == |ws|
  {
    if ws == [] then []
    else
      assert ws == [ws[0]] + ws[1..];
      if ws[0].wordId == wordId then [ws[0].setId] + SetIdsOf(ws[1..], wordId)
      else SetIdsOf(ws[1..], wordId)
  }

  /** A word with no membership rows is left alone by the membership delete. */
  lemma {:induction false} WithoutAbsentWord(ws: seq<Membership>, wordId: int)
    requires forall m :: m in ws ==> m.wordId != wordId
    ensures WithoutWord(ws, wordId) == ws
  {
    if ws != [] {
      WithoutAbsentWord(ws[1..], wordId);
    }
  }

  /**
   * Deleting a word's memberships twice leaves what deleting them once left:
   * the per-set loop of deleteWordFromDB, which repeats the same delete once
   * per set id, ends in the state of a single delete.
   */
  lemma {:induction false} WithoutWordIdempotent(ws: seq<Membership>, wordId: int)
    ensures WithoutWord(WithoutWord(ws, wordId), wordId) == WithoutWord(ws, wordId)
  {
    var once := WithoutWord(ws, wordId);
    forall m | m in once ensures m.wordId != wordId {
      assert multiset(once)[m] > 0;
    }
    WithoutAbsentWord(once, wordId);
  }

  // ------------------------------------------------------------ the join

  function Project(w: Word): (e: SetEntry)
    ensures e.wordId == w.id
  {
    SetEntry(w.id, w.hanzi, w.pinyin, w.translation, w.comment)
  }

  /** The rows of `words AS w JOIN words_sets AS ws ON w.id = ws.word_id` for one membership row. */
  function WordsOfMembership(words: seq<Word>, m: Membership): (r: seq<SetEntry>)
    ensures forall e :: e in r <==> exists w :: w in words && w.id == m.wordId && e == Project(w)
  {
    if words == [] then []
    else
      assert words == [words[0]] + words[1..];
      (if words[0].id == m.wordId then [Project(words[0])] else []) + WordsOfMembership(words[1..], m)
  }

  /** The join of `words` with the membership rows of set `setId`, in membership order. */
  function JoinMembers(words: seq<Word>, ws: seq<Membership>, setId: int): (r: seq<SetEntry>)
    ensures forall e :: e in r <==> exists w :: w in words && Membership(w.id, setId) in ws && e == Project(w)
  {
    if ws == [] then []
    else
      assert ws == [ws[0]] + ws[1..];
      (if ws[0].setId == setId then WordsOfMembership(words, ws[0]) else []) + JoinMembers(words, ws[1..], setId)
  }

  /**
   * The query of getWordsInSet: words joined with words_sets joined with
   * sets, restricted to `s.id = $1`. The join with `sets` only filters: a
   * set id with no row in `sets` yields nothing.
   */
  function WordsInSet(words: seq<Word>, ws: seq<Membership>, sets: seq<VocabSet>, setId: int): (r: seq<SetEntry>)
    ensures forall e :: e in r <==>
      HasSet(sets, setId) && exists w :: w in words && Membership(w.id, setId) in ws && e == Project(w)
  {
    if HasSet(sets, setId) then JoinMembers(words, ws, setId) else []
  }

  /** After an added membership (w, s), word w is listed in set s. */
  lemma AddedWordListed(words: seq<Word>, ws: seq<Membership>, sets: seq<VocabSet>, w: Word, setId: int)
    requires w in words && HasSet(sets, setId)
    ensures Project(w) in WordsInSet(words, ws + [Membership(w.id, setId)], sets, setId)
  {
    assert Membership(w.id, setId) in ws + [Membership(w.id, setId)];
  }

  /** After the membership delete for word w, no set lists w. */
  lemma RemovedWordNotListed(words: seq<Word>, ws: seq<Membership>, sets: seq<VocabSet>, wordId: int, setId: int)
    ensures forall e :: e in WordsInSet(words, WithoutWord(ws, wordId), sets, setId) ==> e.wordId != wordId
  {
    var rest := WithoutWord(ws, wordId);
    forall e | e in WordsInSet(words, rest, sets, setId) ensures e.wordId != wordId {
      var w :| w in words && Membership(w.id, setId) in rest && e == Project(w);
      assert multiset(rest)[Membership(w.id, setId)] > 0;
    }
  }

  /** Every membership row refers to an existing word and an existing set. */
  ghost predicate ForeignKeysHold(words: seq<Word>, ws: seq<Membership>, sets: seq<VocabSet>)
  {
    forall m :: m in ws ==> HasWord(words, m.wordId) && HasSet(sets, m.setId)
  }

  /**
   * When no membership row dangles, the join lists a word exactly when the
   * set has a membership row for it, and it is empty exactly when the set
   * has no membership row at all.
   */
  lemma JoinUnderForeignKeys(words: seq<Word>, ws: seq<Membership>, sets: seq<VocabSet>, setId: int)
    requires ForeignKeysHold(words, ws, sets)
    ensures forall e :: e in WordsInSet(words, ws, sets, setId) <==>
      exists w :: w in words && Membership(w.id, setId) in ws && e == Project(w)
    ensures WordsInSet(words, ws, sets, setId) == [] <==> forall m :: m in ws ==> m.setId != setId
  {
    var r := WordsInSet(words, ws, sets, setId);
    forall e | exists w :: w in words && Membership(w.id, setId) in ws && e == Project(w)
      ensures e in r
    {
      var w :| w in words && Membership(w.id, setId) in ws && e == Project(w);
      assert HasSet(sets, setId);
    }
    forall m | m in ws && m.setId == setId ensures r != [] {
      var w :| w in words && w.id == m.wordId;
      assert m == Membership(w.id, setId);
      assert Project(w) in r;
    }
    if r != [] {
      assert r[0] in r;
      var w :| w in words && Membership(w.id, setId) in ws && r[0] == Project(w);
    }
  }
}
